=== FILE: README.md ===
# Poor Richard's Settings, modelled in Dafny

This project models the settings-binding core of Poor Richard's Settings
(`conf.py`). A settings class is an attribute table: names in definition
order, each with a value. Two operations act on it.

- `update_from_env` makes one pass over the process environment. It takes
  every variable whose key starts with a prefix. It removes every occurrence
  of the prefix from the key and lower-cases the rest to get an attribute name.
  It skips names listed in `_no_environ_set`. It coerces the raw string with
  the declared type hint and stores the result, creating the attribute if the
  class lacks it.
- `get_missing_settings` reports the public attributes, in definition order,
  that `_optional_settings` does not exempt and that still hold `None`.

Both are pure functions over an explicit state:

- `SettingsState.Settings` is the attribute table.
- `Values.Value` holds the Python values: `None`, str, bool, int and tuple.
- `Values.Hint` is the declared type hint: `str`, `bool`, `int`, or a
  subscripted `typing` alias such as `List[int]`.
- The environment is passed in as a sequence of `Binder.EnvEntry` values.
- The hints are a map taken once, before the loop, as `get_type_hints` is.

A pass ends in `Binder.Outcome`: either `Completed`, or `Aborted` with the
exception and the state left behind. An uncaught exception stops the Python
loop, and the assignments it already made stay on the class. `Aborted` keeps
that partial state.

The metadata lists are ordinary attributes. They are re-read from the
current state at every step, with `getattr`'s default of an empty tuple.
Python's `in` is modelled as written:

- On a tuple it compares elements.
- On a str it searches for a substring, so `_no_environ_set = ("s5")` (a
  string, not a tuple) protects `s`, `5`, `s5` and the empty name `""`, which a key equal to the prefix derives.
- On anything else it raises `TypeError`, which neither operation catches.

Five behaviours of the code are easy to miss, and the model keeps each:

- `bool` coercion yields `True` for every non-empty string, `"0"` and
  `"False"` included.
- A `ValueError` from `int` is not in the `except` list, so it ends the pass.
- With several entries for one name, the last one in enumeration order wins.
  Examples are `MYAPP_S1` and `MYAPP_s1`, or `MYAPP_MYAPP_S1`, because every
  occurrence of the prefix is removed. The result therefore depends on the
  order in which the environment is enumerated.
- A key equal to the prefix binds the attribute named by the empty string.
  Nothing special-cases it.
- The debug record is built before the `setattr`. For a name containing
  `password` it slices the value with `v[:4]`. When an `int` or `bool` hint
  has produced a number or a boolean, that slice raises `TypeError`, which
  ends the pass before the assignment. The model keeps this effect, and the
  logging is left out.

## Model

| member | source | states |
|---|---|---|
| Text.StartsWith | conf.py:65 | `s.startswith(p)` holds exactly when `p` occurs in `s` at index 0 |
| Text.Occurs | conf.py:70 | `p in s` on strings holds exactly when `p` appears in `s` at some index |
| Text.RemoveAll | conf.py:68 | `key.replace(prefix, "")` is no longer than the key and contains only the key's characters |
| Text.RemoveAllWithoutOccurrence | conf.py:68 | removing a non-empty prefix from a string that does not contain it changes nothing |
| Text.RemoveAllLeading | conf.py:68 | a leading occurrence of the prefix is dropped and the scan continues after it |
| Text.RemoveAllAtFirst | conf.py:68 | the first occurrence of a non-empty prefix is removed with the text before it kept, so with Text.RemoveAllWithoutOccurrence the result is fixed for every non-empty prefix |
| Text.RemoveAllEmptyPattern | conf.py:68 | `s.replace("", "")` is `s` |
| Text.Lower | conf.py:68 | lower-casing keeps the length, maps each character on its own, and leaves no upper-case ASCII letter |
| Decimal.ParseInt | conf.py:77 | `int(v)` succeeds exactly on an optionally signed, non-empty run of decimal digits |
| Decimal.ParseFormatRoundTrip | conf.py:77 | `int(str(i)) == i` for every integer |
| Decimal.ParseIntLeadingZero | conf.py:77 | `int("0" + d) == int(d)` for every digit string `d`, so leading zeros are accepted and ignored |
| Decimal.ParseIntSign | conf.py:77 | `int("+" + d) == int(d)` and `int("-" + d) == -int(d)` for every digit string, so `int("-0") == 0` |
| Decimal.FormatOfCanonical | conf.py:77 | a digit string without a leading zero is exactly `str` of the integer `int` reads from it, so with the two lemmas above `int()` is fixed on every accepted literal |
| Values.Coerce | conf.py:74-79 | an `int` hint yields the parsed integer or raises `ValueError` exactly on malformed text; a `bool` hint yields non-emptiness; str, generic-alias and missing hints keep the raw string |
| Values.CoerceIntRoundTrip | conf.py:77 | an `int` hint applied to the decimal text of an integer stores that integer |
| Values.CoerceBoolIsNonEmpty | conf.py:77 | a `bool` hint stores `True` for every non-empty string, `"0"` and `"False"` included |
| Values.Contains | conf.py:70-72 | `name in container` is element membership on a tuple, substring search on a str, and raises on any other value |
| SettingsState.GetOr | conf.py:70 | `getattr(cls, name, default)` is the attribute when present and the default otherwise |
| SettingsState.SetAttr | conf.py:87 | `setattr` binds the name, creates it after the existing attributes if absent, keeps the position if present, and leaves every other attribute alone |
| Binder.TargetName | conf.py:68 | the attribute name derived from a key is no longer than the key and holds no upper-case ASCII letter; its value on conventional and repeated-prefix keys is given by Binder.TargetNameOfConventionalKey and Binder.RepeatedPrefixSameTarget |
| Binder.Protected | conf.py:70 | `getattr(cls, "_no_environ_set", ())` is the stored attribute when present and the empty tuple otherwise |
| Binder.HintFor | conf.py:77 | `type_hints.get(name)` is present exactly when the name has a hint, and is that hint |
| Values.Sliceable | conf.py:86 | `v[:4]` is defined exactly for str and tuple values; `None`, bool and int raise |
| Binder.Decide | conf.py:64-86 | an entry is skipped exactly when its key lacks the prefix or the `in` test finds its name protected; a failing `in` test raises `NotIterable`, a failing `int()` raises `ValueError`, a password name whose coerced value is not a str or tuple raises from the slice, and every other prefixed entry assigns its coerced value to the derived name |
| Binder.Step | conf.py:64-87 | one iteration changes at most the derived name, never removes an attribute, and leaves the state as it was when it raises |
| Binder.Bind | conf.py:62-87 | an environment with no prefixed key leaves the settings unchanged; a pass never removes an attribute and keeps the table well formed |
| Binder.TargetNameEmptyPrefix | conf.py:65-68 | with the empty prefix every key matches and binds its own lower-cased form |
| Binder.TargetNameOfConventionalKey | conf.py:68 | a key made of the prefix and a suffix that does not contain it binds the lower-cased suffix (`MYAPP_S1` binds `s1`) |
| Binder.RepeatedPrefixSameTarget | conf.py:68 | `prefix + prefix + rest` derives the same name as `prefix + rest`, so both entries bind one attribute |
| Binder.BindFrame | conf.py:64-87 | an attribute that no prefixed entry targets keeps its value, whether the pass completes or aborts |
| Binder.BindKeepsProtected | conf.py:70-72 | a name listed in `_no_environ_set` keeps its prior value (or stays absent) whatever the environment holds, unless an entry rewrites `_no_environ_set` itself |
| Binder.BindAppend | conf.py:64-87 | the pass is a left fold over the entries: binding `a + b` is binding `a` and then `b`, and an exception in `a` ends it |
| Binder.BindAbortKeepsEarlier | conf.py:75-87 | an aborted pass leaves exactly the state of the completed pass over the entries before the one that raised |
| Binder.BindStoresLastEntry | conf.py:74-87 | after a completed pass an unprotected name holds the coercion of the last prefixed entry that targets it, created if it was absent, provided no entry before that one derives `_no_environ_set` |
| Binder.Assignments | conf.py:62-87 | every assignment a pass makes targets a name derived from a prefixed entry of the environment |
| Binder.ApplyAll | conf.py:87 | applying assignments keeps every existing attribute, binds every assigned name, and keeps the order when all names already exist |
| Binder.OverlayLastWins | conf.py:87 | for each assigned name, the last assignment in the sequence determines its value |
| Binder.ApplyAllIsOverlay | conf.py:87 | after the assignments, each assigned name holds its last assigned value and every other attribute its old one |
| Binder.ApplyAllIdempotent | conf.py:87 | applying the same assignments twice equals applying them once |
| Binder.BindIsApplyAll | conf.py:62-87 | while no entry rewrites `_no_environ_set`, a pass applies the assignments computed against the initial protected names, and aborts exactly when computing them raises |
| Binder.BindLastAssignmentWins | conf.py:62-87 | a completed pass leaves the old attributes overlaid with the last assignment to each targeted name, provided no entry derives `_no_environ_set` |
| Binder.BindIdempotent | conf.py:62-87 | a second pass with the same environment, hints and prefix over the result of a completed pass changes nothing, provided no entry rewrites `_no_environ_set` |
| Validator.IsPrivate | conf.py:104 | `attr.startswith("_")` holds exactly when the name is non-empty and its first character is `_` |
| Validator.Exemptions | conf.py:105 | `getattr(cls, "_optional_settings", ())` is the stored attribute when present and the empty tuple otherwise |
| Validator.MissingFrom | conf.py:102-111 | the loop from a given position reports exactly the later attributes that are missing, each once and in definition order, and raises exactly when `_optional_settings` is not iterable and a public attribute lies ahead |
| Validator.GetMissingSettings | conf.py:90-111 | the result holds exactly the public, non-exempt attributes whose value is `None`, each once and in definition order; it raises exactly when `_optional_settings` is neither a str nor a tuple and a public attribute exists |
| Validator.OnlyPrivateIsComplete | conf.py:103-111 | a class whose attributes all start with `_` has no missing settings |
| Examples.GetMissingSettingsExample | conf.py:114-126 | with `setting1 = None`, `setting2 = 123` and `optional = None` exempt, exactly `["setting1"]` is reported |
| Examples.UpdateFromEnvExample | conf.py:129-156 | the test environment stores `s1 = 32` and `s2 = True`, keeps `s3 = "a test"` raw, leaves `s4` at `None` and the protected `s5` at `(1, 2, 3)` |
| Examples.RemoveAfterOtherText | conf.py:68 | `"XMYAPP_S1".replace("MYAPP_", "")` is `"XS1"`: an occurrence after other text is removed too |
| Examples.ParseIntNonCanonical | conf.py:77 | `int("08080") == 8080`, `int("+5") == 5` and `int("-0") == 0` |
| Examples.RewrittenProtectionSkipsLaterEntry | conf.py:70-72 | an entry that stores the str `"s1"` as `_no_environ_set` makes the pass skip a later `MYAPP_S1`, so `s1` stays absent although it was not protected at the start |
| Examples.ExampleIntFailure | conf.py:77-78 | `int("abc")` raises the uncaught `ValueError` |
| Examples.AbortedPassKeepsEarlierAssignment | conf.py:74-87 | a malformed int ends the pass, with the earlier assignment kept and the later entry not applied |
| Examples.PasswordIntAborts | conf.py:82-87 | a `password` name with an `int` hint raises `TypeError` from the masking slice and is never assigned |

## Left out

- `os.environ` and `os.getenv`: the environment is a parameter, a sequence of entries in enumeration order. The model does not depend on keys being distinct, and it claims no independence from order.
- `threading.Lock()` (conf.py:63): a fresh lock is built on each call, so it excludes nothing, and there is no concurrency to model.
- The `logger.debug` record and the `"****" + v[:4]` masking (conf.py:82-86): logging is a side channel and is not modelled. The one effect of the record on the outcome, the `TypeError` from slicing a non-sequence, is modelled.
- Python reflection (`get_type_hints`, `vars`, `getattr`, `setattr`): replaced by the explicit attribute table and a hint map. Dunder entries of `vars(cls)` are ordinary rows of the table. They all start with `_`, so the validator skips them, and the example table holds one, `__module__`. In Python, `setattr` on a read-only type attribute (`__dict__`, `__mro__`, `__class__`, `__bases__`) raises and ends the pass; the model stores the value instead, so a key such as `MYAPP___DICT__` has a different outcome. An entry whose derived name is `__annotations__` would change the hints a later call reads. The model does not track that, because the hints are a separate parameter.
- Inheritance: `getattr` can find an attribute on a base class that `vars` does not list. The model has a single class with no bases.
- Text.RemoveAll: its contract states only that the result is no longer than the key and is made of the key's characters. Its exact left-to-right removal is stated by three lemmas that together cover every string and prefix: Text.RemoveAllWithoutOccurrence (no occurrence), Text.RemoveAllAtFirst (removal at the first occurrence) and Text.RemoveAllEmptyPattern (the empty prefix).
- Binder.TargetName: its contract gives only the length bound and the absence of upper-case ASCII letters. The name it derives from conventional and repeated-prefix keys is stated by Binder.TargetNameOfConventionalKey and Binder.RepeatedPrefixSameTarget, and the underlying removal by the two RemoveAll lemmas.
- Decimal.ParseInt: accepts only an optional sign followed by ASCII digits. CPython's `int()` also accepts surrounding whitespace, underscores between digits and non-ASCII digits. In current CPython releases, `int()` also rejects a literal longer than 4300 digits with `ValueError`, which would end the pass; the model parses literals of any length. Its contract states when parsing succeeds, and the value is fixed by Decimal.ParseFormatRoundTrip, Decimal.FormatOfCanonical, Decimal.ParseIntLeadingZero and Decimal.ParseIntSign.
- Text.Lower: ASCII only. CPython's `str.lower()` also lower-cases non-ASCII letters.
- Values.Hint: only `str`, `bool`, `int` and subscripted `typing` aliases are modelled. A hint that is some other callable (`float`, `list`, a user class) is not. Neither are `AttributeError` or `KeyError` raised by a hint.
- Binder.BindIdempotent and Binder.BindKeepsProtected: both are stated only for environments where no prefixed entry derives the name `_no_environ_set`. The pass re-reads that list from the current state, so an entry rewriting it changes later skip decisions. Bind itself models that re-read faithfully.
- Binder.BindStoresLastEntry: stated only when no entry before the one it names derives `_no_environ_set`. Without that condition the claim is false, in Python as in the model: Examples.RewrittenProtectionSkipsLaterEntry shows an earlier entry storing a str list of protected names that makes the pass skip the last entry for `s1`.
- Binder.BindLastAssignmentWins: stated only when no entry derives `_no_environ_set`, for the same reason: a rewritten list can skip an entry whose assignment the overlay would otherwise include.
- The example fields of `Settings` (conf.py:40-44) and the `__main__` block (conf.py:158-160): example data and an entry point.

=== FILE: binder.dfy ===
/**
  `update_from_env`: one pass over the environment that binds every entry
  whose key starts with the prefix to the attribute named by the rest of the
  key, lower-cased, coercing the raw string with the declared type hint.
 */
module Binder {
  import opened Wrappers
  import opened Text
  import opened Values
  import opened SettingsState

  /** One environment variable, as the process environment enumerates it. */
  datatype EnvEntry = EnvEntry(key: string, value: string)

  /**
    The end of a pass. An uncaught exception stops the pass, and the
    assignments made before it stay on the class, so `Aborted` carries them.
   */
  datatype Outcome = Completed(settings: Settings) | Aborted(error: Raised, partial: Settings)
  {
    /** The attribute table the pass leaves behind, finished or not. */
    function State(): Settings {
      if Completed? then settings else partial
    }
  }

  /** An attribute name and the value to store under it. */
  type Assignment = (string, Value)

  const NoEnvironSet: string := "_no_environ_set"

  /** Names containing this are shown masked in the debug record, by slicing the value. */
  const PasswordMarker: string := "password"

  /** `k.replace(prefix, "").lower()`: every occurrence of the prefix goes, not only the leading one. */
  function TargetName(prefix: string, key: string): (r: string)
    ensures |r| <= |key|
    ensures forall i :: 0 <= i < |r| ==> !IsUpper(r[i])
  {
    Lower(RemoveAll(key, prefix))
  }

  /** `getattr(cls, "_no_environ_set", ())`, read from the current state. */
  function Protected(s: Settings): (r: Value)
    ensures NoEnvironSet in s.attrs ==> r == s.attrs[NoEnvironSet]
    ensures NoEnvironSet !in s.attrs ==> r == Tuple([])
  {
    GetOr(s, NoEnvironSet, Tuple([]))
  }

  /** `type_hints.get(name)` on the snapshot of the hints taken before the loop. */
  function HintFor(hints: map<string, Hint>, name: string): (r: Option<Hint>)
    ensures r.Some? <==> name in hints
    ensures r.Some? ==> r.value == hints[name]
  {
    if name in hints then Some(hints[name]) else None
  }

  /** Some entry of `env` matches the prefix and derives the attribute name `n`. */
  ghost predicate Targets(prefix: string, env: seq<EnvEntry>, n: string) {
    exists i :: 0 <= i < |env| && StartsWith(env[i].key, prefix) && TargetName(prefix, env[i].key) == n
  }

  /** No entry of `env` can overwrite the list of protected names. */
  ghost predicate KeepsMetadata(prefix: string, env: seq<EnvEntry>) {
    !Targets(prefix, env, NoEnvironSet)
  }

  /**
    What one environment entry does, given the protected-names value in
    force: nothing (`Ok(None)`), one assignment, or an exception.
   */
  function Decide(protected: Value, hints: map<string, Hint>, prefix: string, e: EnvEntry)
    : (r: Result<Option<Assignment>, Raised>)
    ensures !StartsWith(e.key, prefix) ==> r == Ok(None)
    ensures StartsWith(e.key, prefix) && Contains(protected, TargetName(prefix, e.key)) == Ok(true)
            ==> r == Ok(None)
    ensures r.Ok? && r.value.Some? ==>
              && StartsWith(e.key, prefix)
              && r.value.value.0 == TargetName(prefix, e.key)
              && Contains(protected, r.value.value.0) == Ok(false)
              && Coerce(HintFor(hints, r.value.value.0), e.value) == Ok(r.value.value.1)
              && (Occurs(PasswordMarker, r.value.value.0) ==> Sliceable(r.value.value.1))
    ensures r.Err? ==>
              && StartsWith(e.key, prefix)
              && (|| r.error == NotIterable(protected)
                  || r.error == ValueError(e.value)
                  || (r.error.NotSubscriptable? && Occurs(PasswordMarker, TargetName(prefix, e.key))))
    ensures StartsWith(e.key, prefix) && Contains(protected, TargetName(prefix, e.key)).Err?
            ==> r == Err(NotIterable(protected))
    ensures StartsWith(e.key, prefix) && Contains(protected, TargetName(prefix, e.key)) == Ok(false)
            && Coerce(HintFor(hints, TargetName(prefix, e.key)), e.value).Err?
            ==> r == Err(ValueError(e.value))
    ensures StartsWith(e.key, prefix) && Contains(protected, TargetName(prefix, e.key)) == Ok(false)
            && Coerce(HintFor(hints, TargetName(prefix, e.key)), e.value).Ok?
            ==> var name := TargetName(prefix, e.key);
                var v := Coerce(HintFor(hints, name), e.value).value;
                r == (if Occurs(PasswordMarker, name) && !Sliceable(v) then Err(NotSubscriptable(v))
                      else Ok(Some((name, v))))
  {
    if !StartsWith(e.key, prefix) then
      Ok(None)
    else
      var name := TargetName(prefix, e.key);
      match Contains(protected, name)
      case Err(x) => Err(x)
      case Ok(true) => Ok(None)
      case Ok(false) =>
        match Coerce(HintFor(hints, name), e.value)
        case Err(x) => Err(x)
        case Ok(v) =>
          // the masked debug record slices the value before it is stored
          if Occurs(PasswordMarker, name) && !Sliceable(v) then Err(NotSubscriptable(v))
          else Ok(Some((name, v)))
  }

  /** One iteration of the loop, reading the protected names from the current state. */
  function Step(s: Settings, hints: map<string, Hint>, prefix: string, e: EnvEntry): (r: Outcome)
    ensures !StartsWith(e.key, prefix) ==> r == Completed(s)
    ensures r.Aborted? ==> r.partial == s
    ensures forall n :: n != TargetName(prefix, e.key) ==> Get(r.State(), n) == Get(s, n)
    ensures s.attrs.Keys <= r.State().attrs.Keys
    ensures Valid(s) ==> Valid(r.State())
  {
    match Decide(Protected(s), hints, prefix, e)
    case Err(x) => Aborted(x, s)
    case Ok(None) => Completed(s)
    case Ok(Some(a)) => Completed(SetAttr(s, a.0, a.1))
  }

  /** `update_from_env(cls, prefix=prefix)` over the environment `env`, in enumeration order. */
  function Bind(s: Settings, hints: map<string, Hint>, prefix: string, env: seq<EnvEntry>): (r: Outcome)
    ensures (forall i :: 0 <= i < |env| ==> !StartsWith(env[i].key, prefix)) ==> r == Completed(s)
    ensures s.attrs.Keys <= r.State().attrs.Keys
    ensures Valid(s) ==> Valid(r.State())
    decreases |env|
  {
    if |env| == 0 then
      Completed(s)
    else
      match Step(s, hints, prefix, env[0])
      case Aborted(x, p) => Aborted(x, p)
      case Completed(s1) => Bind(s1, hints, prefix, env[1..])
  }

  lemma TargetsTail(prefix: string, env: seq<EnvEntry>, n: string)
    requires |env| > 0 && Targets(prefix, env[1..], n)
    ensures Targets(prefix, env, n)
  {
    var i :| 0 <= i < |env[1..]| && StartsWith(env[1..][i].key, prefix)
              && TargetName(prefix, env[1..][i].key) == n;
    assert env[i + 1] == env[1..][i];
  }

  /**
    The key convention: for a key made of the prefix and a suffix in which
    the prefix does not occur again, the attribute is the lower-cased suffix.
   */
  lemma TargetNameOfConventionalKey(prefix: string, suffix: string)
    requires |prefix| > 0 && !Occurs(prefix, suffix)
    ensures StartsWith(prefix + suffix, prefix)
    ensures TargetName(prefix, prefix + suffix) == Lower(suffix)
  {
    assert (prefix + suffix)[..|prefix|] == prefix;
    RemoveAllLeading(prefix, suffix);
    RemoveAllWithoutOccurrence(suffix, prefix);
  }

  /** With the empty prefix every key matches and binds its own lower-cased form. */
  lemma TargetNameEmptyPrefix(key: string)
    ensures StartsWith(key, "")
    ensures TargetName("", key) == Lower(key)
  {
    RemoveAllEmptyPattern(key);
  }

  /**
    Every occurrence of the prefix is removed, so a repeated prefix derives
    the same attribute as a single one: both entries bind the same name.
   */
  lemma RepeatedPrefixSameTarget(prefix: string, rest: string)
    requires |prefix| > 0
    ensures StartsWith(prefix + prefix + rest, prefix)
    ensures TargetName(prefix, prefix + prefix + rest) == TargetName(prefix, prefix + rest)
  {
    assert (prefix + prefix + rest)[..|prefix|] == prefix;
    assert prefix + prefix + rest == prefix + (prefix + rest);
    RemoveAllLeading(prefix, prefix + rest);
  }

  /** An attribute that no matching entry targets keeps its value, even when the pass aborts. */
  lemma {:induction false} BindFrame(s: Settings, hints: map<string, Hint>, prefix: string,
                                     env: seq<EnvEntry>, n: string)
    requires !Targets(prefix, env, n)
    ensures Get(Bind(s, hints, prefix, env).State(), n) == Get(s, n)
    decreases |env|
  {
    if |env| > 0 {
      assert !(StartsWith(env[0].key, prefix) && TargetName(prefix, env[0].key) == n);
      var r := Step(s, hints, prefix, env[0]);
      if r.Completed? {
        if Targets(prefix, env[1..], n) {
          TargetsTail(prefix, env, n);
        }
        BindFrame(r.settings, hints, prefix, env[1..], n);
      }
    }
  }

  /** A name listed in `_no_environ_set` keeps its prior value whatever the environment holds. */
  lemma {:induction false} BindKeepsProtected(s: Settings, hints: map<string, Hint>, prefix: string,
                                              env: seq<EnvEntry>, n: string)
    requires KeepsMetadata(prefix, env)
    requires Contains(Protected(s), n) == Ok(true)
    ensures Get(Bind(s, hints, prefix, env).State(), n) == Get(s, n)
    decreases |env|
  {
    if |env| > 0 {
      var r := Step(s, hints, prefix, env[0]);
      if r.Completed? {
        var s1 := r.settings;
        if StartsWith(env[0].key, prefix) {
          assert TargetName(prefix, env[0].key) != NoEnvironSet;
        }
        assert Get(s1, NoEnvironSet) == Get(s, NoEnvironSet);
        assert Protected(s1) == Protected(s);
        if Targets(prefix, env[1..], NoEnvironSet) {
          TargetsTail(prefix, env, NoEnvironSet);
        }
        BindKeepsProtected(s1, hints, prefix, env[1..], n);
      }
    }
  }

  /**
    Binding `a` then `b` is binding `a + b`: the pass is a left fold, and an
    abort in `a` ends it before `b` is looked at.
   */
  lemma {:induction false} BindAppend(s: Settings, hints: map<string, Hint>, prefix: string,
                                      a: seq<EnvEntry>, b: seq<EnvEntry>)
    ensures Bind(s, hints, prefix, a + b) ==
            match Bind(s, hints, prefix, a)
            case Completed(s1) => Bind(s1, hints, prefix, b)
            case Aborted(x, p) => Aborted(x, p)
    decreases |a|
  {
    if |a| == 0 {
      assert a + b == b;
    } else {
      assert (a + b)[0] == a[0];
      assert (a + b)[1..] == a[1..] + b;
      var r := Step(s, hints, prefix, a[0]);
      if r.Completed? {
        BindAppend(r.settings, hints, prefix, a[1..], b);
      }
    }
  }

  /** After a completed first step, a pass over the first `k + 1` entries is a pass over the next `k` from there. */
  lemma BindConsPrefix(s: Settings, hints: map<string, Hint>, prefix: string, env: seq<EnvEntry>, k: nat)
    requires k < |env| - 1 && Step(s, hints, prefix, env[0]).Completed?
    ensures Bind(s, hints, prefix, env[..k + 1])
            == Bind(Step(s, hints, prefix, env[0]).settings, hints, prefix, env[1..][..k])
  {
    assert env[..k + 1][0] == env[0];
    assert env[..k + 1][1..] == env[1..][..k];
  }

  /**
    An aborted pass leaves exactly the assignments of the entries before the
    one that raised: the partial state is the completed pass over that prefix
    of the environment.
   */
  lemma {:induction false} BindAbortKeepsEarlier(s: Settings, hints: map<string, Hint>, prefix: string,
                                                 env: seq<EnvEntry>)
    requires Bind(s, hints, prefix, env).Aborted?
    ensures exists k :: 0 <= k < |env|
              && Bind(s, hints, prefix, env[..k]) == Completed(Bind(s, hints, prefix, env).partial)
              && Step(Bind(s, hints, prefix, env).partial, hints, prefix, env[k])
                 == Bind(s, hints, prefix, env)
    decreases |env|
  {
    var r := Step(s, hints, prefix, env[0]);
    if r.Aborted? {
      assert env[..0] == [];
      assert Bind(s, hints, prefix, env[..0]) == Completed(s);
    } else {
      var s1 := r.settings;
      var whole := Bind(s1, hints, prefix, env[1..]);
      assert Bind(s, hints, prefix, env) == whole;
      BindAbortKeepsEarlier(s1, hints, prefix, env[1..]);
      var k :| 0 <= k < |env[1..]|
                && Bind(s1, hints, prefix, env[1..][..k]) == Completed(whole.partial)
                && Step(whole.partial, hints, prefix, env[1..][k]) == whole;
      BindConsPrefix(s, hints, prefix, env, k);
      assert env[1..][k] == env[k + 1];
      assert 0 <= k + 1 < |env|
             && Bind(s, hints, prefix, env[..k + 1]) == Completed(whole.partial)
             && Step(whole.partial, hints, prefix, env[k + 1]) == whole;
    }
  }

  /**
    The value stored under `n` is the coercion of the last matching entry
    that targets `n`, provided `n` is not protected: the attribute is
    created if it was absent, and later entries for other names leave it.
   */
  lemma BindStoresLastEntry(s: Settings, hints: map<string, Hint>, prefix: string,
                            env: seq<EnvEntry>, i: nat)
    requires i < |env| && StartsWith(env[i].key, prefix)
    requires !Targets(prefix, env[i + 1..], TargetName(prefix, env[i].key))
    requires !Targets(prefix, env[..i], NoEnvironSet)
    requires Contains(Protected(s), TargetName(prefix, env[i].key)) == Ok(false)
    requires Bind(s, hints, prefix, env).Completed?
    ensures Coerce(HintFor(hints, TargetName(prefix, env[i].key)), env[i].value).Ok?
    ensures Get(Bind(s, hints, prefix, env).settings, TargetName(prefix, env[i].key))
            == Some(Coerce(HintFor(hints, TargetName(prefix, env[i].key)), env[i].value).value)
  {
    var n := TargetName(prefix, env[i].key);
    BindSplitAt(s, hints, prefix, env, i);
    var si := Bind(s, hints, prefix, env[..i]).settings;
    BindFrame(s, hints, prefix, env[..i], NoEnvironSet);
    assert Protected(si) == Protected(s);
    var step := Step(si, hints, prefix, env[i]);
    StepStoresEntry(si, hints, prefix, env[i]);
    BindFrame(step.settings, hints, prefix, env[i + 1..], n);
  }

  /** A completed pass is the pass over the entries before `i`, then entry `i`, then the rest. */
  lemma BindSplitAt(s: Settings, hints: map<string, Hint>, prefix: string, env: seq<EnvEntry>, i: nat)
    requires i < |env| && Bind(s, hints, prefix, env).Completed?
    ensures Bind(s, hints, prefix, env[..i]).Completed?
    ensures Step(Bind(s, hints, prefix, env[..i]).settings, hints, prefix, env[i]).Completed?
    ensures Bind(Step(Bind(s, hints, prefix, env[..i]).settings, hints, prefix, env[i]).settings,
                 hints, prefix, env[i + 1..])
            == Bind(s, hints, prefix, env)
  {
    assert env == env[..i] + ([env[i]] + env[i + 1..]);
    BindAppend(s, hints, prefix, env[..i], [env[i]] + env[i + 1..]);
    var si := Bind(s, hints, prefix, env[..i]).settings;
    BindAppend(si, hints, prefix, [env[i]], env[i + 1..]);
    assert Bind(si, hints, prefix, [env[i]]) == Step(si, hints, prefix, env[i]);
  }

  /** A completed step on an unprotected prefixed entry stores the coerced value. */
  lemma StepStoresEntry(s: Settings, hints: map<string, Hint>, prefix: string, e: EnvEntry)
    requires StartsWith(e.key, prefix)
    requires Contains(Protected(s), TargetName(prefix, e.key)) == Ok(false)
    requires Step(s, hints, prefix, e).Completed?
    ensures Coerce(HintFor(hints, TargetName(prefix, e.key)), e.value).Ok?
    ensures Get(Step(s, hints, prefix, e).settings, TargetName(prefix, e.key))
            == Some(Coerce(HintFor(hints, TargetName(prefix, e.key)), e.value).value)
  {
    var d := Decide(Protected(s), hints, prefix, e);
    assert d.Ok? && d.value.Some?;
  }

  /**
    The assignments a pass makes when the protected-names value stays fixed
    at `protected`; the first exception ends the list.
   */
  function Assignments(protected: Value, hints: map<string, Hint>, prefix: string, env: seq<EnvEntry>)
    : (r: Result<seq<Assignment>, Raised>)
    ensures r.Ok? ==> forall a :: a in r.value ==> Targets(prefix, env, a.0)
    decreases |env|
  {
    if |env| == 0 then
      Ok([])
    else
      match Decide(protected, hints, prefix, env[0])
      case Err(x) => Err(x)
      case Ok(d) =>
        match Assignments(protected, hints, prefix, env[1..])
        case Err(x) => Err(x)
        case Ok(rest) =>
          assert forall a :: a in rest ==> Targets(prefix, env, a.0) by {
            forall a | a in rest
              ensures Targets(prefix, env, a.0)
            {
              TargetsTail(prefix, env, a.0);
            }
          }
          Ok((if d.Some? then [d.value] else []) + rest)
  }

  /** `setattr` for each assignment in turn. */
  function ApplyAll(s: Settings, w: seq<Assignment>): (r: Settings)
    ensures s.attrs.Keys <= r.attrs.Keys
    ensures forall a :: a in w ==> a.0 in r.attrs
    ensures (forall a :: a in w ==> a.0 in s.attrs) ==> r.order == s.order
    decreases |w|
  {
    if |w| == 0 then s
    else
      var s1 := SetAttr(s, w[0].0, w[0].1);
      assert forall a :: a in w[1..] ==> a in w;
      ApplyAll(s1, w[1..])
  }

  /** The names `w` assigns. */
  function AssignedNames(w: seq<Assignment>): set<string> {
    set a | a in w :: a.0
  }

  /** For each name assigned in `w`, the value of its last assignment. */
  function Overlay(w: seq<Assignment>): (m: map<string, Value>)
    ensures m.Keys == AssignedNames(w)
    decreases |w|
  {
    if |w| == 0 then map[]
    else
      var rest := Overlay(w[1..]);
      assert AssignedNames(w) == {w[0].0} + AssignedNames(w[1..]) by {
        assert forall a :: a in w ==> a == w[0] || a in w[1..];
        assert forall a :: a in w[1..] ==> a in w;
      }
      map[w[0].0 := w[0].1] + rest
  }

  /** The last assignment to a name is the one `Overlay` keeps. */
  lemma {:induction false} OverlayLastWins(w: seq<Assignment>, i: nat)
    requires i < |w|
    requires forall j :: i < j < |w| ==> w[j].0 != w[i].0
    ensures w[i].0 in Overlay(w) && Overlay(w)[w[i].0] == w[i].1
    decreases |w|
  {
    if i > 0 {
      assert forall j :: i - 1 < j < |w[1..]| ==> w[1..][j] == w[j + 1];
      OverlayLastWins(w[1..], i - 1);
    }
  }

  lemma MapUpdateThenUnion(m: map<string, Value>, k: string, v: Value, o: map<string, Value>)
    ensures m[k := v] + o == m + (map[k := v] + o)
  {
  }

  /** Applying assignments sets each assigned name to its last assigned value and leaves the others. */
  lemma {:induction false} ApplyAllIsOverlay(s: Settings, w: seq<Assignment>)
    ensures ApplyAll(s, w).attrs == s.attrs + Overlay(w)
    decreases |w|
  {
    if |w| > 0 {
      var s1 := SetAttr(s, w[0].0, w[0].1);
      ApplyAllIsOverlay(s1, w[1..]);
      var rest := Overlay(w[1..]);
      assert Overlay(w) == map[w[0].0 := w[0].1] + rest;
      MapUpdateThenUnion(s.attrs, w[0].0, w[0].1, rest);
    }
  }

  /** Applying the same assignments a second time changes nothing. */
  lemma ApplyAllIdempotent(s: Settings, w: seq<Assignment>)
    ensures ApplyAll(ApplyAll(s, w), w) == ApplyAll(s, w)
  {
    var s1 := ApplyAll(s, w);
    ApplyAllIsOverlay(s, w);
    ApplyAllIsOverlay(s1, w);
    assert ApplyAll(s1, w).order == s1.order;
  }

  /**
    While no entry can rewrite `_no_environ_set`, a pass is the list of
    assignments computed against the initial protected names, applied in
    order; the pass aborts exactly when that list ends in an exception.
   */
  lemma {:induction false} BindIsApplyAll(s: Settings, hints: map<string, Hint>, prefix: string,
                                          env: seq<EnvEntry>)
    requires KeepsMetadata(prefix, env)
    ensures Assignments(Protected(s), hints, prefix, env).Ok? ==>
              Bind(s, hints, prefix, env)
              == Completed(ApplyAll(s, Assignments(Protected(s), hints, prefix, env).value))
    ensures Assignments(Protected(s), hints, prefix, env).Err? ==>
              && Bind(s, hints, prefix, env).Aborted?
              && Bind(s, hints, prefix, env).error == Assignments(Protected(s), hints, prefix, env).error
    decreases |env|
  {
    if |env| > 0 {
      if Targets(prefix, env[1..], NoEnvironSet) {
        TargetsTail(prefix, env, NoEnvironSet);
      }
      var p := Protected(s);
      var d := Decide(p, hints, prefix, env[0]);
      var tail := Assignments(p, hints, prefix, env[1..]);
      if d.Err? {
        assert Bind(s, hints, prefix, env) == Aborted(d.error, s);
      } else if d.value.None? {
        assert Bind(s, hints, prefix, env) == Bind(s, hints, prefix, env[1..]);
        BindIsApplyAll(s, hints, prefix, env[1..]);
        if tail.Ok? {
          assert [] + tail.value == tail.value;
        }
      } else {
        var a := d.value.value;
        assert a.0 != NoEnvironSet;
        var s1 := SetAttr(s, a.0, a.1);
        assert Protected(s1) == p;
        assert Bind(s, hints, prefix, env) == Bind(s1, hints, prefix, env[1..]);
        BindIsApplyAll(s1, hints, prefix, env[1..]);
        if tail.Ok? {
          assert ([a] + tail.value)[1..] == tail.value;
          assert ApplyAll(s, [a] + tail.value) == ApplyAll(s1, tail.value);
        }
      }
    }
  }

  /**
    After a completed pass that cannot rewrite `_no_environ_set`, every
    attribute holds the value of the last assignment made to it, or its
    prior value when no assignment targeted it.
   */
  lemma BindLastAssignmentWins(s: Settings, hints: map<string, Hint>, prefix: string, env: seq<EnvEntry>)
    requires KeepsMetadata(prefix, env)
    requires Bind(s, hints, prefix, env).Completed?
    ensures Assignments(Protected(s), hints, prefix, env).Ok?
    ensures Bind(s, hints, prefix, env).settings.attrs
            == s.attrs + Overlay(Assignments(Protected(s), hints, prefix, env).value)
  {
    BindIsApplyAll(s, hints, prefix, env);
    ApplyAllIsOverlay(s, Assignments(Protected(s), hints, prefix, env).value);
  }

  /**
    Binding is idempotent: a second pass with the same environment, hints
    and prefix over the result of a completed pass gives that result back.
   */
  lemma BindIdempotent(s: Settings, hints: map<string, Hint>, prefix: string, env: seq<EnvEntry>)
    requires KeepsMetadata(prefix, env)
    requires Bind(s, hints, prefix, env).Completed?
    ensures Bind(Bind(s, hints, prefix, env).settings, hints, prefix, env) == Bind(s, hints, prefix, env)
  {
    BindIsApplyAll(s, hints, prefix, env);
    var w := Assignments(Protected(s), hints, prefix, env).value;
    var s1 := ApplyAll(s, w);
    BindFrame(s, hints, prefix, env, NoEnvironSet);
    assert Protected(s1) == Protected(s);
    BindIsApplyAll(s1, hints, prefix, env);
    ApplyAllIdempotent(s, w);
  }
}

=== FILE: decimal.dfy ===
/**
  Python's `int(v)` on a string, restricted to an optional sign followed by
  ASCII decimal digits, and its inverse `str(i)`.
 */
module Decimal {
  import opened Wrappers

  predicate IsDigit(c: char) {
    '0' <= c <= '9'
  }

  predicate AllDigits(s: string) {
    forall i :: 0 <= i < |s| ==> IsDigit(s[i])
  }

  /** The literals `int()` accepts in this model: one or more digits, optionally signed. */
  predicate IsIntLiteral(s: string) {
    || (|s| > 0 && AllDigits(s))
    || (|s| > 1 && (s[0] == '+' || s[0] == '-') && AllDigits(s[1..]))
  }

  function DigitValue(c: char): nat
    requires IsDigit(c)
  {
    c as int - '0' as int
  }

  function DigitChar(d: nat): char
    requires d < 10
  {
    ('0' as int + d) as char
  }

  /** The number a string of decimal digits denotes, most significant digit first. */
  function DigitsValue(s: string): nat
    requires AllDigits(s)
    decreases |s|
  {
    if |s| == 0 then 0 else 10 * DigitsValue(s[..|s| - 1]) + DigitValue(s[|s| - 1])
  }

  /** `int(s)`: `None` stands for the `ValueError` a malformed literal raises. */
  function ParseInt(s: string): (r: Option<int>)
    ensures r.Some? <==> IsIntLiteral(s)
  {
    if |s| > 0 && (s[0] == '+' || s[0] == '-') then
      var digits := s[1..];
      if |digits| > 0 && AllDigits(digits) then
        var magnitude: int := DigitsValue(digits);
        Some(if s[0] == '-' then -magnitude else magnitude)
      else
        None
    else if |s| > 0 && AllDigits(s) then
      Some(DigitsValue(s))
    else
      None
  }

  /** Appending a digit shifts the value one decimal place and adds the digit. */
  lemma DigitsValueAppend(a: string, c: char)
    requires AllDigits(a) && IsDigit(c)
    ensures AllDigits(a + [c])
    ensures DigitsValue(a + [c]) == 10 * DigitsValue(a) + DigitValue(c)
  {
    assert (a + [c])[..|a|] == a;
  }

  /** A leading zero does not change the value of a digit string. */
  lemma {:induction false} DigitsValueLeadingZero(d: string)
    requires AllDigits(d)
    ensures AllDigits("0" + d)
    ensures DigitsValue("0" + d) == DigitsValue(d)
    decreases |d|
  {
    if |d| == 0 {
      assert "0" + d == "0";
      assert "0"[..0] == "";
    } else {
      var init := d[..|d| - 1];
      var last := d[|d| - 1];
      DigitsValueLeadingZero(init);
      assert "0" + d == ("0" + init) + [last];
      assert d == init + [last];
      DigitsValueAppend("0" + init, last);
      DigitsValueAppend(init, last);
    }
  }

  /** `int("0" + d) == int(d)`: leading zeros are accepted and ignored. */
  lemma ParseIntLeadingZero(d: string)
    requires |d| > 0 && AllDigits(d)
    ensures ParseInt("0" + d) == ParseInt(d)
  {
    DigitsValueLeadingZero(d);
  }

  /** `int("+" + d) == int(d)` and `int("-" + d) == -int(d)`, so `int("-0") == 0`. */
  lemma ParseIntSign(d: string)
    requires |d| > 0 && AllDigits(d)
    ensures ParseInt("+" + d) == ParseInt(d)
    ensures ParseInt("-" + d) == Some(-ParseInt(d).value)
  {
    assert ("+" + d)[1..] == d;
    assert ("-" + d)[1..] == d;
  }

  /** `str(n)` for a natural number. */
  function FormatNat(n: nat): (r: string)
    ensures |r| > 0 && AllDigits(r)
    ensures |r| > 1 ==> r[0] != '0'
    decreases n
  {
    if n < 10 then [DigitChar(n)] else FormatNat(n / 10) + [DigitChar(n % 10)]
  }

  /** `str(i)` for an integer. */
  function FormatInt(i: int): (r: string)
    ensures IsIntLiteral(r)
  {
    if i < 0 then "-" + FormatNat(-i) else FormatNat(i)
  }

  lemma {:induction false} DigitsValueOfFormat(n: nat)
    ensures DigitsValue(FormatNat(n)) == n
    decreases n
  {
    var f := FormatNat(n);
    if n >= 10 {
      DigitsValueOfFormat(n / 10);
      assert f[..|f| - 1] == FormatNat(n / 10);
    }
  }

  /** A digit string is worth at least its leading digit. */
  lemma {:induction false} DigitsValueAtLeastLeading(d: string)
    requires |d| > 0 && AllDigits(d)
    ensures DigitsValue(d) >= DigitValue(d[0])
    decreases |d|
  {
    if |d| > 1 {
      var init := d[..|d| - 1];
      DigitsValueAtLeastLeading(init);
      assert init[0] == d[0];
    }
  }

  /**
    `str(int(d)) == d` for a digit string without a leading zero: together
    with ParseIntLeadingZero and ParseIntSign this fixes `int()` on every
    literal, not only on the text `str` produces.
   */
  lemma {:induction false} FormatOfCanonical(d: string)
    requires |d| > 0 && AllDigits(d)
    requires |d| > 1 ==> d[0] != '0'
    ensures FormatNat(DigitsValue(d)) == d
    decreases |d|
  {
    var v := DigitsValue(d);
    if |d| == 1 {
      assert d == [d[0]];
      assert d[..0] == "";
    } else {
      var init := d[..|d| - 1];
      var last := d[|d| - 1];
      assert init[0] == d[0];
      DigitsValueAtLeastLeading(init);
      FormatOfCanonical(init);
      assert v / 10 == DigitsValue(init) && v % 10 == DigitValue(last);
      assert DigitChar(DigitValue(last)) == last;
      assert d == init + [last];
    }
  }

  /** `int(str(i)) == i`: parsing the decimal text of an integer gives it back. */
  lemma ParseFormatRoundTrip(i: int)
    ensures ParseInt(FormatInt(i)) == Some(i)
  {
    if i < 0 {
      DigitsValueOfFormat(-i);
      assert FormatInt(i)[1..] == FormatNat(-i);
    } else {
      DigitsValueOfFormat(i);
    }
  }
}

=== FILE: examples.dfy ===
/**
  The two tests that ship with the settings module, stated over the model:
  a class with one required setting left at `None`, and a pass over an
  environment that sets an int, a bool, a str and a protected tuple.
 */
module Examples {
  import opened Wrappers
  import opened Text
  import opened Decimal
  import opened Values
  import opened SettingsState
  import opened Binder
  import opened Validator

  /** The class of `test_get_missing_settings`; `__module__` stands for the dunder entries of `vars`. */
  function MissingTestSettings(): Settings {
    Settings(
      ["__module__", "_optional_settings", "setting1", "setting2", "optional"],
      map[
        "__module__" := Str("conf"),
        "_optional_settings" := Tuple([Str("optional")]),
        "setting1" := Null,
        "setting2" := Int(123),
        "optional" := Null])
  }

  lemma PublicName(n: string)
    requires |n| > 0 && n[0] != '_'
    ensures !IsPrivate(n)
  {
    assert n[..1][0] == n[0];
  }

  /** Only `setting1` is reported: `setting2` is set and `optional` is exempt. */
  lemma GetMissingSettingsExample()
    ensures Valid(MissingTestSettings())
    ensures GetMissingSettings(MissingTestSettings()) == Ok(["setting1"])
  {
    var s := MissingTestSettings();
    assert IsPrivate("__module__") && IsPrivate("_optional_settings");
    PublicName("setting1");
    PublicName("setting2");
    PublicName("optional");
    assert Valid(s) by {
      assert forall n :: n in s.attrs <==> n in s.order;
    }
    assert Exemptions(s) == Tuple([Str("optional")]);
    assert s.order[2] == "setting1" && s.attrs["setting1"] == Null;
    assert Contains(Exemptions(s), "setting1") == Ok(false);
    assert Contains(Exemptions(s), "setting2") == Ok(false);
    assert Contains(Exemptions(s), "optional") == Ok(true);
    assert MissingFrom(s, 5) == Ok([]);
    assert MissingFrom(s, 4) == Ok([]);
    assert MissingFrom(s, 3) == Ok([]);
    assert MissingFrom(s, 2) == Ok(["setting1"]) by {
      assert MissingFrom(s, 2) == Ok(["setting1"] + []);
      assert ["setting1"] + [] == ["setting1"];
    }
    assert MissingFrom(s, 1) == Ok(["setting1"]);
    assert MissingFrom(s, 0) == Ok(["setting1"]);
  }

  /** The class of `test_update_from_env` before the pass. */
  function EnvTestSettings(): Settings {
    Settings(
      ["_no_environ_set", "s1", "s2", "s3", "s4", "s5"],
      map[
        "_no_environ_set" := Tuple([Str("s5")]),
        "s1" := Null,
        "s2" := Null,
        "s3" := Null,
        "s4" := Null,
        "s5" := Tuple([Int(1), Int(2), Int(3)])])
  }

  /** `get_type_hints` of that class: `s5: List[int]` is a generic alias. */
  function EnvTestHints(): map<string, Hint> {
    map["s1" := IntHint, "s2" := BoolHint, "s3" := StrHint, "s4" := StrHint, "s5" := GenericAlias]
  }

  /** The environment of the test, with one unrelated variable in front. */
  function EnvTestEnvironment(): seq<EnvEntry> {
    [ EnvEntry("PATH", "/usr/bin"),
      EnvEntry("MYAPP_S1", "32"),
      EnvEntry("MYAPP_S2", "1"),
      EnvEntry("MYAPP_S3", "a test"),
      EnvEntry("MYAPP_S5", "should be skipped") ]
  }

  lemma ConventionalTarget(suffix: string, name: string)
    requires !Occurs("MYAPP_", suffix) && Lower(suffix) == name
    ensures StartsWith("MYAPP_" + suffix, "MYAPP_")
    ensures TargetName("MYAPP_", "MYAPP_" + suffix) == name
  {
    TargetNameOfConventionalKey("MYAPP_", suffix);
  }

  /** `"XMYAPP_S1".replace("MYAPP_", "")` is `"XS1"`: an occurrence after other text is removed too. */
  lemma RemoveAfterOtherText()
    ensures RemoveAll("XMYAPP_S1", "MYAPP_") == "XS1"
  {
    assert "XMYAPP_S1" == "X" + "MYAPP_" + "S1";
    assert !OccursAt("MYAPP_", "XMYAPP_S1", 0) by { assert "XMYAPP_S1"[0] != "MYAPP_"[0]; }
    RemoveAllAtFirst("X", "MYAPP_", "S1");
    NoOccurrenceInShorter("MYAPP_", "S1");
    RemoveAllWithoutOccurrence("S1", "MYAPP_");
  }

  /** `int("08080") == 8080`, `int("+5") == 5` and `int("-0") == 0`. */
  lemma ParseIntNonCanonical()
    ensures ParseInt("08080") == Some(8080)
    ensures ParseInt("+5") == Some(5)
    ensures ParseInt("-0") == Some(0)
  {
    assert "08080" == "0" + "8080";
    ParseIntLeadingZero("8080");
    assert DigitsValue("8") == 8 by { assert "8"[..0] == ""; }
    DigitsValueAppend("8", '0');
    assert "8" + ['0'] == "80";
    DigitsValueAppend("80", '8');
    assert "80" + ['8'] == "808";
    DigitsValueAppend("808", '0');
    assert "808" + ['0'] == "8080";
    assert "+5" == "+" + "5" && "-0" == "-" + "0";
    ParseIntSign("5");
    ParseIntSign("0");
  }

  /** The empty class the rewrite example starts from, and its state after the first entry. */
  function EmptyClass(): Settings { Settings([], map[]) }
  function AfterRewrite(): Settings { SetAttr(EmptyClass(), NoEnvironSet, Str("s1")) }

  /** The key `MYAPP_` followed by a name without upper-case letters or `M` derives that name. */
  lemma LowerSuffixTarget(name: string)
    requires 'M' !in name && forall i :: 0 <= i < |name| ==> !IsUpper(name[i])
    ensures StartsWith("MYAPP_" + name, "MYAPP_")
    ensures TargetName("MYAPP_", "MYAPP_" + name) == name
  {
    LowerOfLower(name);
    NoOccurrenceWithoutChar("MYAPP_", name, 'M');
    ConventionalTarget(name, name);
  }

  /** A step on an unprotected, non-password name whose coercion succeeds assigns it. */
  lemma StepAssigns(s: Settings, hints: map<string, Hint>, e: EnvEntry, name: string, v: Value)
    requires StartsWith(e.key, "MYAPP_") && TargetName("MYAPP_", e.key) == name
    requires Contains(Protected(s), name) == Ok(false)
    requires Coerce(HintFor(hints, name), e.value) == Ok(v)
    requires !Occurs(PasswordMarker, name)
    ensures Step(s, hints, "MYAPP_", e) == Completed(SetAttr(s, name, v))
  {
  }

  lemma RewriteStep()
    ensures Step(EmptyClass(), map[], "MYAPP_", EnvEntry("MYAPP_" + NoEnvironSet, "s1"))
            == Completed(AfterRewrite())
  {
    LowerSuffixTarget(NoEnvironSet);
    NoOccurrenceWithoutChar(PasswordMarker, NoEnvironSet, 'p');
    assert Protected(EmptyClass()) == Tuple([]);
    assert HintFor(map[], NoEnvironSet) == None;
    StepAssigns(EmptyClass(), map[], EnvEntry("MYAPP_" + NoEnvironSet, "s1"), NoEnvironSet, Str("s1"));
  }

  lemma RewrittenSkipStep()
    ensures Step(AfterRewrite(), map[], "MYAPP_", EnvEntry("MYAPP_S1", "x")) == Completed(AfterRewrite())
  {
    ConventionalTarget("S1", "s1");
    assert "MYAPP_" + "S1" == "MYAPP_S1";
    assert Protected(AfterRewrite()) == Str("s1");
    assert StartsWith("s1", "s1");
    assert Contains(Str("s1"), "s1") == Ok(true);
  }

  /**
    An entry that derives `_no_environ_set` changes which later entries are
    skipped: here it stores the str `"s1"`, the substring test then skips
    `MYAPP_S1`, and `s1` stays absent although it was not protected at the start.
   */
  lemma RewrittenProtectionSkipsLaterEntry()
    ensures Contains(Protected(EmptyClass()), "s1") == Ok(false)
    ensures Bind(EmptyClass(), map[], "MYAPP_",
                 [EnvEntry("MYAPP_" + NoEnvironSet, "s1"), EnvEntry("MYAPP_S1", "x")])
            == Completed(AfterRewrite())
    ensures Get(AfterRewrite(), "s1") == None
  {
    var env := [EnvEntry("MYAPP_" + NoEnvironSet, "s1"), EnvEntry("MYAPP_S1", "x")];
    RewriteStep();
    RewrittenSkipStep();
    assert env[1..][0] == EnvEntry("MYAPP_S1", "x");
    assert Bind(AfterRewrite(), map[], "MYAPP_", env[1..][1..]) == Completed(AfterRewrite());
    assert Bind(AfterRewrite(), map[], "MYAPP_", env[1..]) == Completed(AfterRewrite());
  }

  /** `int("32") == 32` */
  lemma ExampleIntCoercion()
    ensures Coerce(Some(IntHint), "32") == Ok(Int(32))
  {
    assert "32"[..1] == "3";
    assert DigitsValue("32") == 32;
  }

  /** A step of the example that assigns `v` to the unprotected `name`. */
  lemma ExampleStep(s: Settings, e: EnvEntry, name: string, v: Value)
    requires Protected(s) == Tuple([Str("s5")])
    requires StartsWith(e.key, "MYAPP_") && TargetName("MYAPP_", e.key) == name
    requires name != "s5" && name in EnvTestHints() && |name| < |PasswordMarker|
    requires Coerce(Some(EnvTestHints()[name]), e.value) == Ok(v)
    ensures Step(s, EnvTestHints(), "MYAPP_", e) == Completed(SetAttr(s, name, v))
  {
    NoOccurrenceInShorter(PasswordMarker, name);
    assert Contains(Protected(s), name) == Ok(false);
  }

  /** The step of the example whose target `s5` is protected. */
  lemma ExampleSkip(s: Settings, e: EnvEntry)
    requires Protected(s) == Tuple([Str("s5")])
    requires StartsWith(e.key, "MYAPP_") && TargetName("MYAPP_", e.key) == "s5"
    ensures Step(s, EnvTestHints(), "MYAPP_", e) == Completed(s)
  {
    assert Contains(Protected(s), "s5") == Ok(true);
  }

  /** The state after each assigning entry of the example. */
  function AfterS1(): Settings { SetAttr(EnvTestSettings(), "s1", Int(32)) }
  function AfterS2(): Settings { SetAttr(AfterS1(), "s2", Bool(true)) }
  function AfterS3(): Settings { SetAttr(AfterS2(), "s3", Str("a test")) }

  /** Assigning an ordinary name leaves the protected names as they were. */
  lemma ProtectedAfterSet(s: Settings, name: string, v: Value)
    requires name != NoEnvironSet
    ensures Protected(SetAttr(s, name, v)) == Protected(s)
  {
    assert Get(SetAttr(s, name, v), NoEnvironSet) == Get(s, NoEnvironSet);
  }

  lemma ExampleStepS1()
    ensures Step(EnvTestSettings(), EnvTestHints(), "MYAPP_", EnvTestEnvironment()[1]) == Completed(AfterS1())
  {
    ConventionalTarget("S1", "s1");
    assert "MYAPP_" + "S1" == "MYAPP_S1";
    ExampleIntCoercion();
    assert Protected(EnvTestSettings()) == Tuple([Str("s5")]);
    ExampleStep(EnvTestSettings(), EnvTestEnvironment()[1], "s1", Int(32));
  }

  lemma ExampleStepS2()
    ensures Step(AfterS1(), EnvTestHints(), "MYAPP_", EnvTestEnvironment()[2]) == Completed(AfterS2())
  {
    ConventionalTarget("S2", "s2");
    assert "MYAPP_" + "S2" == "MYAPP_S2";
    assert Protected(AfterS1()) == Tuple([Str("s5")]);
    ExampleStep(AfterS1(), EnvTestEnvironment()[2], "s2", Bool(true));
  }

  lemma ExampleStepS3()
    ensures Step(AfterS2(), EnvTestHints(), "MYAPP_", EnvTestEnvironment()[3]) == Completed(AfterS3())
  {
    ConventionalTarget("S3", "s3");
    assert "MYAPP_" + "S3" == "MYAPP_S3";
    ProtectedAfterSet(EnvTestSettings(), "s1", Int(32));
    ProtectedAfterSet(AfterS1(), "s2", Bool(true));
    var e := EnvTestEnvironment()[3];
    assert e == EnvEntry("MYAPP_S3", "a test");
    assert EnvTestHints()["s3"] == StrHint;
    assert Protected(AfterS2()) == Tuple([Str("s5")]);
    ExampleStep(AfterS2(), e, "s3", Str("a test"));
  }

  lemma ExampleStepS5()
    ensures Step(AfterS3(), EnvTestHints(), "MYAPP_", EnvTestEnvironment()[4]) == Completed(AfterS3())
  {
    ConventionalTarget("S5", "s5");
    assert "MYAPP_" + "S5" == "MYAPP_S5";
    ProtectedAfterSet(EnvTestSettings(), "s1", Int(32));
    ProtectedAfterSet(AfterS1(), "s2", Bool(true));
    ProtectedAfterSet(AfterS2(), "s3", Str("a test"));
    ExampleSkip(AfterS3(), EnvTestEnvironment()[4]);
  }

  /** The values the example's assignments leave on the class. */
  lemma ExampleFinalValues()
    ensures var s := AfterS3();
            && Get(s, "s1") == Some(Int(32))
            && Get(s, "s2") == Some(Bool(true))
            && Get(s, "s3") == Some(Str("a test"))
            && Get(s, "s4") == Some(Null)
            && Get(s, "s5") == Some(Tuple([Int(1), Int(2), Int(3)]))
  {
    assert Get(AfterS3(), "s4") == Get(AfterS2(), "s4") == Get(AfterS1(), "s4");
    assert Get(AfterS3(), "s5") == Get(AfterS2(), "s5") == Get(AfterS1(), "s5");
    assert Get(AfterS3(), "s1") == Get(AfterS2(), "s1");
  }

  /**
    `s1` becomes the int 32, `s2` the bool True, `s3` keeps the raw string,
    `s4` stays `None` and the protected `s5` stays `(1, 2, 3)`.
   */
  lemma UpdateFromEnvExample()
    ensures Bind(EnvTestSettings(), EnvTestHints(), "MYAPP_", EnvTestEnvironment()) == Completed(AfterS3())
    ensures var s := AfterS3();
            && Get(s, "s1") == Some(Int(32))
            && Get(s, "s2") == Some(Bool(true))
            && Get(s, "s3") == Some(Str("a test"))
            && Get(s, "s4") == Some(Null)
            && Get(s, "s5") == Some(Tuple([Int(1), Int(2), Int(3)]))
  {
    var s0 := EnvTestSettings();
    var hints := EnvTestHints();
    var env := EnvTestEnvironment();
    var p := "MYAPP_";
    assert !StartsWith("PATH", p);
    ExampleStepS1();
    ExampleStepS2();
    ExampleStepS3();
    ExampleStepS5();
    ExampleFinalValues();
    assert Bind(AfterS3(), hints, p, env[5..]) == Completed(AfterS3());
    assert Bind(AfterS3(), hints, p, env[4..]) == Completed(AfterS3());
    assert Bind(AfterS2(), hints, p, env[3..]) == Completed(AfterS3());
    assert Bind(AfterS1(), hints, p, env[2..]) == Completed(AfterS3());
    assert Bind(s0, hints, p, env[1..]) == Completed(AfterS3());
  }

  /** `int("abc")` raises `ValueError`, which the `except` clause does not list. */
  lemma ExampleIntFailure()
    ensures Coerce(Some(IntHint), "abc") == Err(ValueError("abc"))
  {
  }

  /** The state after the first entry of the aborted example. */
  function AfterX(): Settings { SetAttr(EnvTestSettings(), "s3", Str("x")) }

  lemma AbortedStepS3()
    ensures Step(EnvTestSettings(), EnvTestHints(), "MYAPP_", EnvEntry("MYAPP_S3", "x")) == Completed(AfterX())
  {
    ConventionalTarget("S3", "s3");
    assert "MYAPP_" + "S3" == "MYAPP_S3";
    assert Protected(EnvTestSettings()) == Tuple([Str("s5")]);
    ExampleStep(EnvTestSettings(), EnvEntry("MYAPP_S3", "x"), "s3", Str("x"));
  }

  lemma AbortedStepS1()
    ensures Step(AfterX(), EnvTestHints(), "MYAPP_", EnvEntry("MYAPP_S1", "abc"))
            == Aborted(ValueError("abc"), AfterX())
  {
    ConventionalTarget("S1", "s1");
    assert "MYAPP_" + "S1" == "MYAPP_S1";
    ProtectedAfterSet(EnvTestSettings(), "s3", Str("x"));
    assert Contains(Protected(AfterX()), "s1") == Ok(false);
    assert HintFor(EnvTestHints(), "s1") == Some(IntHint);
    ExampleIntFailure();
    assert Decide(Protected(AfterX()), EnvTestHints(), "MYAPP_", EnvEntry("MYAPP_S1", "abc"))
           == Err(ValueError("abc"));
  }

  /**
    A malformed int ends the pass: the assignment to `s3` made before it
    stays, and the later entry for `s2` is never looked at.
   */
  lemma AbortedPassKeepsEarlierAssignment()
    ensures Bind(EnvTestSettings(), EnvTestHints(), "MYAPP_",
                 [EnvEntry("MYAPP_S3", "x"), EnvEntry("MYAPP_S1", "abc"), EnvEntry("MYAPP_S2", "1")])
            == Aborted(ValueError("abc"), AfterX())
  {
    var env := [EnvEntry("MYAPP_S3", "x"), EnvEntry("MYAPP_S1", "abc"), EnvEntry("MYAPP_S2", "1")];
    AbortedStepS3();
    AbortedStepS1();
    assert env[1..][0] == EnvEntry("MYAPP_S1", "abc");
    assert Bind(AfterX(), EnvTestHints(), "MYAPP_", env[1..]) == Aborted(ValueError("abc"), AfterX());
  }

  lemma PasswordTarget()
    ensures StartsWith("MYAPP_db_password", "MYAPP_")
    ensures TargetName("MYAPP_", "MYAPP_db_password") == "db_password"
  {
    assert "MYAPP_" + "db_password" == "MYAPP_db_password";
    LowerOfLower("db_password");
    NoOccurrenceWithoutChar("MYAPP_", "db_password", 'M');
    ConventionalTarget("db_password", "db_password");
  }

  lemma PasswordOccurs()
    ensures Occurs(PasswordMarker, "db_password")
  {
    var t := "db_password"[3..11];
    assert forall i :: 0 <= i < 8 ==> t[i] == PasswordMarker[i];
    assert t == PasswordMarker;
    assert OccursAt(PasswordMarker, "db_password", 3);
  }

  lemma ExampleIntCoercion1234()
    ensures Coerce(Some(IntHint), "1234") == Ok(Int(1234))
  {
    assert "1234"[..3] == "123" && "123"[..2] == "12" && "12"[..1] == "1";
    assert DigitsValue("1234") == 1234;
  }

  /**
    A password-like name with an `int` hint: the masked debug record slices
    the coerced int, and the resulting `TypeError` ends the pass unassigned.
   */
  lemma PasswordIntAborts()
    ensures Bind(Settings([], map[]), map["db_password" := IntHint], "MYAPP_",
                 [EnvEntry("MYAPP_db_password", "1234")])
            == Aborted(NotSubscriptable(Int(1234)), Settings([], map[]))
  {
    var s0 := Settings([], map[]);
    var hints := map["db_password" := IntHint];
    var e := EnvEntry("MYAPP_db_password", "1234");
    assert Decide(Protected(s0), hints, "MYAPP_", e) == Err(NotSubscriptable(Int(1234))) by {
      PasswordTarget();
      PasswordOccurs();
      ExampleIntCoercion1234();
      assert Protected(s0) == Tuple([]);
      assert HintFor(hints, "db_password") == Some(IntHint);
    }
    assert Step(s0, hints, "MYAPP_", e) == Aborted(NotSubscriptable(Int(1234)), s0);
    assert [e][0] == e;
  }
}

=== FILE: settings.dfy ===
/**
  The attribute table of a settings class: the names in definition order
  (the order `vars(cls)` yields them) and the value bound to each.
 */
module SettingsState {
  import opened Wrappers
  import opened Values

  datatype Settings = Settings(order: seq<string>, attrs: map<string, Value>)

  /** Every attribute is listed once, and exactly the bound names are listed. */
  ghost predicate Valid(s: Settings) {
    && (forall i, j :: 0 <= i < j < |s.order| ==> s.order[i] != s.order[j])
    && (forall n :: n in s.attrs <==> n in s.order)
  }

  /** The attribute `name`, if the class has one. */
  function Get(s: Settings, name: string): Option<Value> {
    if name in s.attrs then Some(s.attrs[name]) else None
  }

  /** `getattr(cls, name, default)` */
  function GetOr(s: Settings, name: string, default: Value): (r: Value)
    ensures Get(s, name) == Some(r) || (Get(s, name) == None && r == default)
  {
    if name in s.attrs then s.attrs[name] else default
  }

  /**
    `setattr(cls, name, v)`: rebinds an existing attribute in place or
    creates a new one after all existing ones; no other attribute changes.
   */
  function SetAttr(s: Settings, name: string, v: Value): (r: Settings)
    ensures Get(r, name) == Some(v)
    ensures forall n :: n != name ==> Get(r, n) == Get(s, n)
    ensures r.attrs.Keys == s.attrs.Keys + {name}
    ensures name in s.attrs ==> r.order == s.order
    ensures name !in s.attrs ==> r.order == s.order + [name]
    ensures Valid(s) ==> Valid(r)
  {
    Settings(if name in s.attrs then s.order else s.order + [name], s.attrs[name := v])
  }
}

=== FILE: text.dfy ===
/**
  The string operations `update_from_env` applies to an environment key:
  `str.startswith`, `in` between two strings, `str.replace(p, "")` and
  `str.lower()`. Lower-casing is ASCII only.
 */
module Text {

  /** `s.startswith(p)` */
  predicate StartsWith(s: string, p: string)
    ensures StartsWith(s, p) <==> OccursAt(p, s, 0)
  {
    assert |p| <= |s| ==> s[..|p|] == s[0..|p|];
    |p| <= |s| && s[..|p|] == p
  }

  /** `p` occurs in `s` starting at index `i`. */
  ghost predicate OccursAt(p: string, s: string, i: int) {
    0 <= i && i + |p| <= |s| && s[i..i + |p|] == p
  }

  /** `p in s` for two strings: `p` is a substring of `s`. */
  function Occurs(p: string, s: string): (r: bool)
    ensures r <==> exists i :: OccursAt(p, s, i)
    decreases |s|
  {
    if StartsWith(s, p) then
      assert OccursAt(p, s, 0);
      true
    else if |s| == 0 then
      false
    else
      var r := Occurs(p, s[1..]);
      ShiftOccurrence(p, s);
      r
  }

  /** A string never occurs in a shorter one. */
  lemma NoOccurrenceInShorter(p: string, s: string)
    requires |s| < |p|
    ensures !Occurs(p, s)
  {
  }

  /** A string holding a character that `s` lacks does not occur in `s`. */
  lemma NoOccurrenceWithoutChar(p: string, s: string, c: char)
    requires c in p && c !in s
    ensures !Occurs(p, s)
  {
  }

  /** An occurrence in `s[1..]` is an occurrence in `s` one place later, and
      every occurrence in `s` other than at 0 comes from one in `s[1..]`. */
  lemma ShiftOccurrence(p: string, s: string)
    requires |s| > 0 && !StartsWith(s, p)
    ensures (exists i :: OccursAt(p, s, i)) <==> (exists i :: OccursAt(p, s[1..], i))
  {
    if exists i :: OccursAt(p, s, i) {
      var i :| OccursAt(p, s, i);
      assert i != 0 by { assert s[0..|p|] == s[..|p|]; }
      assert s[1..][i - 1..i - 1 + |p|] == s[i..i + |p|];
      assert OccursAt(p, s[1..], i - 1);
    }
    if exists i :: OccursAt(p, s[1..], i) {
      var i :| OccursAt(p, s[1..], i);
      assert s[1..][i..i + |p|] == s[i + 1..i + 1 + |p|];
      assert OccursAt(p, s, i + 1);
    }
  }

  /**
    `s.replace(p, "")`: scanning left to right, every non-overlapping
    occurrence of `p` is removed. An empty `p` leaves `s` unchanged.
   */
  function RemoveAll(s: string, p: string): (r: string)
    ensures |r| <= |s|
    ensures forall c :: c in r ==> c in s
    decreases |s|
  {
    if |p| == 0 || |s| == 0 then s
    else if StartsWith(s, p) then RemoveAll(s[|p|..], p)
    else [s[0]] + RemoveAll(s[1..], p)
  }

  /** A string in which `p` does not occur comes through `RemoveAll` intact. */
  lemma {:induction false} RemoveAllWithoutOccurrence(s: string, p: string)
    requires |p| > 0 && !Occurs(p, s)
    ensures RemoveAll(s, p) == s
    decreases |s|
  {
    if |s| > 0 {
      assert !StartsWith(s, p);
      assert !Occurs(p, s[1..]);
      RemoveAllWithoutOccurrence(s[1..], p);
      assert [s[0]] + s[1..] == s;
    }
  }

  /** A leading occurrence of `p` is removed and scanning resumes after it. */
  lemma RemoveAllLeading(p: string, t: string)
    requires |p| > 0
    ensures RemoveAll(p + t, p) == RemoveAll(t, p)
  {
  }

  /**
    The first occurrence of `p` is removed, with everything before it kept:
    together with RemoveAllWithoutOccurrence this fixes RemoveAll for every
    non-empty `p`, and RemoveAllEmptyPattern covers the empty one.
   */
  lemma {:induction false} RemoveAllAtFirst(u: string, p: string, v: string)
    requires |p| > 0
    requires forall i :: 0 <= i < |u| ==> !OccursAt(p, u + p + v, i)
    ensures RemoveAll(u + p + v, p) == u + RemoveAll(v, p)
    decreases |u|
  {
    if |u| == 0 {
      assert u + p + v == p + v;
      RemoveAllLeading(p, v);
    } else {
      var s := u + p + v;
      assert !OccursAt(p, s, 0);
      assert !StartsWith(s, p);
      assert s[1..] == u[1..] + p + v;
      forall i | 0 <= i < |u[1..]|
        ensures !OccursAt(p, u[1..] + p + v, i)
      {
        assert !OccursAt(p, s, i + 1);
        assert s[i + 1..i + 1 + |p|] == (u[1..] + p + v)[i..i + |p|];
      }
      RemoveAllAtFirst(u[1..], p, v);
      assert [u[0]] + u[1..] == u;
      assert [s[0]] + (u[1..] + RemoveAll(v, p)) == u + RemoveAll(v, p);
    }
  }

  /** `s.replace("", "")` is `s`: the empty pattern removes nothing. */
  lemma RemoveAllEmptyPattern(s: string)
    ensures RemoveAll(s, "") == s
  {
  }

  /** ASCII `str.lower()` on one character. */
  function LowerChar(c: char): char {
    if 'A' <= c <= 'Z' then (c as int - 'A' as int + 'a' as int) as char else c
  }

  predicate IsUpper(c: char) {
    'A' <= c <= 'Z'
  }

  /** ASCII `str.lower()`. */
  function Lower(s: string): (r: string)
    ensures |r| == |s|
    ensures forall i :: 0 <= i < |s| ==> r[i] == LowerChar(s[i])
    ensures forall i :: 0 <= i < |r| ==> !IsUpper(r[i])
  {
    if |s| == 0 then [] else [LowerChar(s[0])] + Lower(s[1..])
  }

  /** A string without upper-case letters is its own lower-case form. */
  lemma LowerOfLower(s: string)
    requires forall i :: 0 <= i < |s| ==> !IsUpper(s[i])
    ensures Lower(s) == s
  {
  }
}

=== FILE: validator.dfy ===
/**
  `get_missing_settings`: the public attributes, in definition order, that
  are not exempted by `_optional_settings` and still hold `None`.
 */
module Validator {
  import opened Wrappers
  import opened Text
  import opened Values
  import opened SettingsState

  const OptionalSettings: string := "_optional_settings"

  /** `attr.startswith("_")`: private names, dunders and the metadata lists. */
  predicate IsPrivate(name: string)
    ensures IsPrivate(name) <==> |name| > 0 && name[0] == '_'
  {
    StartsWith(name, "_")
  }

  /** `getattr(cls, "_optional_settings", ())`, read from the current state. */
  function Exemptions(s: Settings): (r: Value)
    ensures OptionalSettings in s.attrs ==> r == s.attrs[OptionalSettings]
    ensures OptionalSettings !in s.attrs ==> r == Tuple([])
  {
    GetOr(s, OptionalSettings, Tuple([]))
  }

  /** A setting the class requires but has not been given. */
  ghost predicate IsMissing(s: Settings, name: string) {
    && !IsPrivate(name)
    && Contains(Exemptions(s), name) == Ok(false)
    && Get(s, name) == Some(Null)
  }

  /** The `in` test on `_optional_settings` raises when that attribute is neither a str nor a tuple. */
  ghost predicate ExemptionsRaise(s: Settings) {
    !Exemptions(s).Tuple? && !Exemptions(s).Str?
  }

  /** The position of `x` in a list that holds it. */
  function IndexOf(xs: seq<string>, x: string): (i: nat)
    requires x in xs
    ensures i < |xs| && xs[i] == x
    ensures forall j :: 0 <= j < i ==> xs[j] != x
  {
    if xs[0] == x then 0 else 1 + IndexOf(xs[1..], x)
  }

  lemma IndexOfDistinct(s: Settings, k: nat)
    requires Valid(s) && k < |s.order|
    ensures IndexOf(s.order, s.order[k]) == k
  {
  }

  /** Names listed after position `k`, in the order they are defined. */
  ghost predicate OrderedFrom(s: Settings, k: nat, names: seq<string>) {
    && (forall i :: 0 <= i < |names| ==> names[i] in s.order && k <= IndexOf(s.order, names[i]))
    && (forall i, j :: 0 <= i < j < |names| ==> IndexOf(s.order, names[i]) < IndexOf(s.order, names[j]))
  }

  lemma OrderedFromCons(s: Settings, k: nat, rest: seq<string>)
    requires Valid(s) && k < |s.order|
    requires OrderedFrom(s, k + 1, rest)
    ensures OrderedFrom(s, k, [s.order[k]] + rest)
  {
    IndexOfDistinct(s, k);
    var names := [s.order[k]] + rest;
    forall i | 0 <= i < |names|
      ensures names[i] in s.order && k <= IndexOf(s.order, names[i])
    {
      if i > 0 {
        assert names[i] == rest[i - 1];
      }
    }
    forall i, j | 0 <= i < j < |names|
      ensures IndexOf(s.order, names[i]) < IndexOf(s.order, names[j])
    {
      assert names[j] == rest[j - 1];
      if i > 0 {
        assert names[i] == rest[i - 1];
      }
    }
  }

  lemma OrderedFromWeaken(s: Settings, k: nat, rest: seq<string>)
    requires OrderedFrom(s, k + 1, rest)
    ensures OrderedFrom(s, k, rest)
  {
  }

  /** The loop of `get_missing_settings` from the attribute at position `k` on. */
  function MissingFrom(s: Settings, k: nat): (r: Result<seq<string>, Raised>)
    requires Valid(s) && k <= |s.order|
    ensures r.Err? <==> ExemptionsRaise(s) && exists i :: k <= i < |s.order| && !IsPrivate(s.order[i])
    ensures r.Err? ==> r.error == NotIterable(Exemptions(s))
    ensures r.Ok? ==> forall n :: n in r.value <==> n in s.order[k..] && IsMissing(s, n)
    ensures r.Ok? ==> OrderedFrom(s, k, r.value)
    decreases |s.order| - k
  {
    if k == |s.order| then
      Ok([])
    else
      var name := s.order[k];
      assert s.order[k..] == [name] + s.order[k + 1..];
      var rest := MissingFrom(s, k + 1);
      assert rest.Ok? ==> OrderedFrom(s, k, rest.value) by {
        if rest.Ok? {
          OrderedFromWeaken(s, k, rest.value);
        }
      }
      if IsPrivate(name) then
        rest
      else
        match Contains(Exemptions(s), name)
        case Err(x) => Err(x)
        case Ok(true) => rest
        case Ok(false) =>
          if s.attrs[name] != Null then
            rest
          else
            match rest
            case Err(x) => Err(x)
            case Ok(tail) =>
              OrderedFromCons(s, k, tail);
              Ok([name] + tail)
  }

  /**
    `get_missing_settings(cls)`: exactly the attributes that are public, not
    exempt and `None`, each once, in definition order; the `in` test raises
    when `_optional_settings` is not iterable and a public attribute exists.
   */
  function GetMissingSettings(s: Settings): (r: Result<seq<string>, Raised>)
    requires Valid(s)
    ensures r.Err? <==> ExemptionsRaise(s) && exists n :: n in s.order && !IsPrivate(n)
    ensures r.Err? ==> r.error == NotIterable(Exemptions(s))
    ensures r.Ok? ==> forall n :: n in r.value <==> n in s.attrs && IsMissing(s, n)
    ensures r.Ok? ==> forall i, j :: 0 <= i < j < |r.value| ==>
                        r.value[i] in s.order && r.value[j] in s.order &&
                        IndexOf(s.order, r.value[i]) < IndexOf(s.order, r.value[j])
  {
    var r := MissingFrom(s, 0);
    assert s.order[0..] == s.order;
    assert (exists i :: 0 <= i < |s.order| && !IsPrivate(s.order[i]))
           <==> (exists n :: n in s.order && !IsPrivate(n)) by {
      if exists i :: 0 <= i < |s.order| && !IsPrivate(s.order[i]) {
        var i :| 0 <= i < |s.order| && !IsPrivate(s.order[i]);
        assert s.order[i] in s.order;
      }
      if exists n :: n in s.order && !IsPrivate(n) {
        var n :| n in s.order && !IsPrivate(n);
        var i :| 0 <= i < |s.order| && s.order[i] == n;
      }
    }
    r
  }

  lemma NoMemberIsEmpty(xs: seq<string>)
    ensures (forall n :: n !in xs) ==> xs == []
  {
    if |xs| > 0 {
      assert xs[0] in xs;
    }
  }

  /** A class with no public attribute is always complete, whatever `_optional_settings` holds. */
  lemma OnlyPrivateIsComplete(s: Settings)
    requires Valid(s)
    requires forall n :: n in s.order ==> IsPrivate(n)
    ensures GetMissingSettings(s) == Ok([])
  {
    var r := GetMissingSettings(s);
    assert r.Ok?;
    assert forall n :: n !in r.value;
    NoMemberIsEmpty(r.value);
  }
}

=== FILE: values.dfy ===
/**
  The Python values a setting can hold, the type hints that drive coercion
  of a raw environment string, and Python's `in` operator as the binder and
  the validator apply it to the metadata attributes.
 */
module Values {
  import opened Wrappers
  import opened Text
  import opened Decimal

  /** A setting's value. `Null` is Python's `None`; `Tuple` covers tuples and lists. */
  datatype Value = Null | Str(s: string) | Bool(b: bool) | Int(i: int) | Tuple(items: seq<Value>)

  /**
    A declared type hint. `GenericAlias` is a subscripted `typing` form such
    as `List[int]` or `Tuple[str]`: calling it raises `TypeError`.
   */
  datatype Hint = StrHint | BoolHint | IntHint | GenericAlias

  /** The exceptions that escape `update_from_env` or `get_missing_settings`. */
  datatype Raised =
    | ValueError(literal: string)   // `int(v)` on a malformed literal
    | NotIterable(container: Value) // `x in c` where `c` is neither a str nor a tuple
    | NotSubscriptable(value: Value) // `v[:4]` where `v` is neither a str nor a tuple

  /**
    `type_hints.get(attr)(v)` inside `try ... except (AttributeError,
    KeyError, TypeError)`. A missing hint (`None(v)`) and a generic alias
    raise `TypeError`, which is caught, so the raw string is kept; a
    `ValueError` from `int` is not caught and escapes.
   */
  function Coerce(hint: Option<Hint>, raw: string): (r: Result<Value, Raised>)
    ensures r.Err? <==> hint == Some(IntHint) && !IsIntLiteral(raw)
    ensures r.Err? ==> r.error == ValueError(raw)
    ensures hint == Some(IntHint) && r.Ok? ==> r.value.Int? && ParseInt(raw) == Some(r.value.i)
    ensures hint == Some(BoolHint) ==> r == Ok(Bool(|raw| > 0))
    ensures hint != Some(IntHint) && hint != Some(BoolHint) ==> r == Ok(Str(raw))
  {
    match hint
    case None => Ok(Str(raw))
    case Some(StrHint) => Ok(Str(raw))
    case Some(BoolHint) => Ok(Bool(raw != ""))
    case Some(GenericAlias) => Ok(Str(raw))
    case Some(IntHint) =>
      match ParseInt(raw)
      case Some(i) => Ok(Int(i))
      case None => Err(ValueError(raw))
  }

  /** An `int` hint turns the decimal text of any integer back into that integer. */
  lemma CoerceIntRoundTrip(i: int)
    ensures Coerce(Some(IntHint), FormatInt(i)) == Ok(Int(i))
  {
    ParseFormatRoundTrip(i);
  }

  /** A `bool` hint makes every non-empty string true, `"0"` and `"False"` included. */
  lemma CoerceBoolIsNonEmpty(raw: string)
    ensures Coerce(Some(BoolHint), raw) == Ok(Bool(raw != ""))
    ensures Coerce(Some(BoolHint), "0") == Ok(Bool(true))
    ensures Coerce(Some(BoolHint), "False") == Ok(Bool(true))
  {
  }

  /** `v[:4]` is defined: `v` is a str or a tuple. */
  predicate Sliceable(v: Value)
    ensures Sliceable(v) <==> !(v.Null? || v.Bool? || v.Int?)
  {
    v.Str? || v.Tuple?
  }

  /**
    `name in container`: element equality on a tuple, substring search on a
    str, and `TypeError` (not caught by either caller) on anything else.
   */
  function Contains(container: Value, name: string): (r: Result<bool, Raised>)
    ensures r.Err? <==> !container.Tuple? && !container.Str?
    ensures r.Err? ==> r.error == NotIterable(container)
    ensures container.Tuple? ==> (r == Ok(true) <==> Str(name) in container.items)
    ensures container.Str? ==> (r == Ok(true) <==> exists i :: OccursAt(name, container.s, i))
  {
    match container
    case Tuple(items) => Ok(Str(name) in items)
    case Str(s) => Ok(Occurs(name, s))
    case _ => Err(NotIterable(container))
  }
}

=== FILE: wrappers.dfy ===
/** The optional and fallible results shared by the other modules. */
module Wrappers {

  /** A value that may be absent (Python's `dict.get` returning `None`). */
  datatype Option<+T> = None | Some(value: T)

  /** Either a computed value or the exception that escaped the computation. */
  datatype Result<+T, +E> = Ok(value: T) | Err(error: E)
}
